=== FILE: README.md ===
# Reactor session client — Dafny model

This project models the core of a remote-control client for a simulated thermal reactor.
The client creates a session on a remote controller and polls its status. It forwards the
operator's control values (heater output, inlet flow, outlet flow) and latches a
"meltdown" state. Three parts hold the logic, and each has its own module:

- `Session` (session.dfy) models the session coordinator hook. Its state (session id, status
  snapshot, error, loading flag, "recently active" flag, control-update queue, meltdown flag)
  is a `Coordinator` object. The hook's commands are methods of that object. Each method is
  proved equal to a transition function on a `State` value. The function also returns the
  requests the command dispatched, in order. Every network outcome is a parameter
  (`Result<T, ApiError>`). Timers become explicit calls: `Tick` is one firing of the polling
  interval and `ActivityExpired` is the 1000 ms activity timeout.
  `SessionProperties` (session_properties.dfy) proves properties over single commands and over
  command sequences (`Run`).
- `ApiClient` (api_client.dfy) models the transport limiter as a `RateLimiter` class. Its one
  real field is `lastRequestTime`, and a ghost log records the dispatch times. The clock is an
  input. The module also holds the relabelling of HTTP-500 failures and the three request
  descriptors (method, path, body).
- `StatusPanel` (status_panel.dfy) models the status panel's derivations from a snapshot:
  thresholds, the capped meltdown-risk percentage, the inner-tank range check, the choice of
  alerts and severities, and which blocks are shown (`Render`). Readings are exact `real`s.

`Types` (types.dfy) holds the snapshot record and the channel names. `Wrappers`
(wrappers.dfy) holds `Option` and `Result`.

Behaviour the model keeps exactly as the code has it, some of it surprising:
- The queue is one append-only list for all channels. A drain sends only its last entry and
  empties it, so an earlier edit to another channel is never sent
  (`EarlierEditToOtherChannelIsDropped`).
- Starting a new session clears neither the queue nor the activity flag. An edit queued
  under the old session is pushed to the new one (`RestartCarriesPendingEdit`).
- A failed fetch latches meltdown only when its message is exactly
  "CORE MELTDOWN IMMINENT, EVACUATE". A 500 response whose body carries any other message
  is a transient error (`ServerFaultWithOwnMessageIsTransient`). A failed push never latches
  (`FailedPushNeverLatches`).
- A session id counts only when it is non-empty. An empty error or an empty status message
  shows no alert. This follows JavaScript truthiness.
- A tick starts the fetch and the drain without awaiting either. So whether to drain, and
  which entry, is decided on the state the tick fires in, even if that tick's fetch then
  latches meltdown.
- Each edit schedules its own 1000 ms timeout, and the first one to fire clears the activity
  flag, even when a later edit is more recent.

## Model

| member | source | states |
|---|---|---|
| `Session.PollIntervalFor` | src/hooks/useSession.ts:92-97 | no polling without a non-empty session id or in meltdown; otherwise 200 ms while the active flag is set and 1000 ms when it is not (both directions) |
| `Session.Coordinator.PollInterval` | src/hooks/useSession.ts:92-97 | the object polls never without a non-empty session id or in meltdown, and otherwise every 200 ms while its active flag is set and every 1000 ms when it is not |
| `Session.Fetched` | src/hooks/useSession.ts:57-79 | one GET of the session's status; success replaces the snapshot and clears the error, and at failed-state time ≥ 120 latches meltdown with the meltdown message; failure keeps the snapshot, latches meltdown only on the exact meltdown message, otherwise reports "Failed to fetch system status" with meltdown unchanged; nothing else changes and meltdown never clears |
| `Session.Coordinator.FetchStatus` | src/hooks/useSession.ts:57-79 | updates the fields exactly as `Fetched` does and returns the GET it dispatched |
| `Session.Pushed` | src/hooks/useSession.ts:32-38 | sends the update; on success a status fetch follows; on failure the error is "Failed to update " plus the channel name and nothing is fetched |
| `Session.Coordinator.PushUpdate` | src/hooks/useSession.ts:32-38 | updates the fields exactly as `Pushed` does |
| `Session.Drained` | src/hooks/useSession.ts:26-39 | does nothing without a session, with an empty queue or in meltdown; otherwise pushes only the queue's last entry, leaves the queue empty, and keeps session, activity and loading; a failed push sends nothing more, sets the channel's failure message and keeps snapshot and meltdown; a successful push is followed by one status GET whose result gives the new state |
| `Session.Coordinator.ProcessControlQueue` | src/hooks/useSession.ts:26-39 | updates the fields exactly as `Drained` does |
| `Session.Ticked` | src/hooks/useSession.ts:99-102 | no request when polling is off; otherwise a status GET first, then (with a non-empty queue) only the last queued entry is pushed; the queue ends empty; with a non-empty queue the new state is the tick's fetch result applied to the emptied queue, then either the re-fetch result (push succeeded, requests GET, POST, GET) or the channel's failure message (push failed, requests GET, POST) |
| `Session.Coordinator.Tick` | src/hooks/useSession.ts:92-105 | updates the fields exactly as `Ticked` does |
| `Session.Started` | src/hooks/useSession.ts:41-55 | ends with loading false; keeps queue and activity flag; on success stores the new id and fetches its status with meltdown cleared first; on create failure keeps the old id and snapshot, clears meltdown and reports "Failed to create new session" |
| `Session.Coordinator.StartNewSession` | src/hooks/useSession.ts:41-55 | updates the fields exactly as `Started` does |
| `Session.Edited` | src/hooks/useSession.ts:81-88 | a no-op without a session or in meltdown; otherwise appends exactly the edit to the queue, sets the active flag and changes nothing else |
| `Session.Coordinator.UpdateControlValue` | src/hooks/useSession.ts:81-88 | updates the fields exactly as `Edited` does |
| `Session.Expired` | src/hooks/useSession.ts:89 | the activity timeout clears the active flag and nothing else |
| `Session.Coordinator.ActivityExpired` | src/hooks/useSession.ts:89 | updates the fields exactly as `Expired` does |
| `Session.Coordinator.constructor` | src/hooks/useSession.ts:13-24 | starts with no session, snapshot or error, not loading, not active, an empty queue and no meltdown |
| `SessionProperties.StepKeepsMeltdown` | src/hooks/useSession.ts:63-73 | no command other than starting a new session clears meltdown |
| `SessionProperties.MeltdownLatches` | src/hooks/useSession.ts:85-105 | from meltdown, any sequence of commands without a restart dispatches no request and changes nothing but the activity flag |
| `SessionProperties.ThresholdMeltdownStopsTraffic` | src/hooks/useSession.ts:63-66 | after a snapshot with failed-state time ≥ 120, no request is sent and the meltdown message stays until a restart |
| `SessionProperties.EditsAreQueued` | src/hooks/useSession.ts:87 | a run of edits appends them, in order, to the queue and sends nothing |
| `SessionProperties.EditsThenTickPushesLast` | src/hooks/useSession.ts:29-33 | after any non-empty run of edits, the next tick's requests are the status GET, then the push of the last edit, and no other push; the queue ends empty |
| `SessionProperties.EarlierEditToOtherChannelIsDropped` | src/hooks/useSession.ts:29-30 | an edit followed by a later edit to another channel is never pushed |
| `SessionProperties.PollingCadence` | src/hooks/useSession.ts:88-97 | an edit makes polling run every 200 ms; the activity timeout brings it back to 1000 ms |
| `SessionProperties.TransientFetchFailureKeepsPolling` | src/hooks/useSession.ts:74-77 | a fetch failure other than the meltdown error reports "Failed to fetch system status", keeps the snapshot and leaves polling unchanged |
| `SessionProperties.ServerFaultWithoutMessageLatches` | src/hooks/useSession.ts:67-73 | a 500 response without a message of its own, relabelled by the limiter, latches meltdown and stops polling |
| `SessionProperties.ServerFaultWithOwnMessageIsTransient` | src/hooks/useSession.ts:67-77 | a 500 response carrying any other non-empty message is reported as a transient fetch failure and does not latch meltdown |
| `SessionProperties.PushAfterLatchingFetch` | src/hooks/useSession.ts:99-102 | a tick whose own fetch latches meltdown still pushes the pending entry, and a re-fetch below the threshold then clears the error while meltdown stays set |
| `SessionProperties.FailedPushNeverLatches` | src/hooks/useSession.ts:35-36 | a failed push reports "Failed to update " plus the channel and leaves meltdown as it was |
| `SessionProperties.StartAndPollScenario` | src/hooks/useSession.test.ts:47-71 | starting with id "123" stores the id and the snapshot, ends loading and polls every 1000 ms; one tick fetches the status a second time |
| `SessionProperties.HeaterEditScenario` | src/hooks/useSession.test.ts:73-89 | after setting the heater to 0.8, polling speeds up to 200 ms and the next tick pushes ("123", heater, 0.8), then re-fetches |
| `SessionProperties.MeltdownScenario` | src/hooks/useSession.test.ts:91-107 | a first snapshot at failed-state time 120 gives meltdown true, the meltdown message and no polling; a later edit is a no-op |
| `SessionProperties.RestartCarriesPendingEdit` | src/hooks/useSession.ts:41-55 | an edit queued under session "A" is pushed to session "B" after a restart, and never to "A" |
| `ApiClient.WaitBeforeDispatch` | src/api/apiClient.ts:15-22 | the wait is never negative; it is zero exactly when 166 ms have passed since the last dispatch; otherwise it ends exactly 166 ms after the last dispatch; with a clock that has not gone back it is at most 166 |
| `ApiClient.DispatchIsSpaced` | src/api/apiClient.ts:15-24 | a dispatch no earlier than the wait asks for is at least 166 ms after the previous one |
| `ApiClient.FirstRequestDoesNotWait` | src/api/apiClient.ts:11-18 | with the initial marker 0, no request waits once the clock reads 166 or more |
| `ApiClient.SpacedApart` | src/api/apiClient.ts:15-24 | in the dispatch log, dispatches k places apart are at least k × 166 ms apart |
| `ApiClient.RateLimiter.Send` | src/api/apiClient.ts:14-36 | computes the wait from the old marker; sets the marker to the dispatch time exactly once, whether or not the send fails; the new dispatch is at least 166 ms after the previous one and the log stays spaced; success passes through, failure is relabelled |
| `ApiClient.RateLimiter.constructor` | src/api/apiClient.ts:11 | the marker starts at 0 with no dispatch logged |
| `ApiClient.Relabel` | src/api/apiClient.ts:29-34 | a 500 failure becomes a plain error with the server's message when present and non-empty, and the meltdown message otherwise; any other failure is unchanged |
| `ApiClient.RelabelledFaultHasMessage` | src/api/apiClient.ts:29-32 | a relabelled 500 is no longer a server fault and always has a non-empty message |
| `ApiClient.CreateSession` | src/api/apiClient.ts:38-43 | POST to "/sessions" without a body or a content type |
| `ApiClient.GetSystemStatus` | src/api/apiClient.ts:45-52 | GET without a body or a content type, to "/sessions/" followed by exactly the session id |
| `ApiClient.UpdateControl` | src/api/apiClient.ts:54-67 | POST with the value as a text/plain body, to the session's status path followed by "/inputs/" and the channel name |
| `ApiClient.StatusUrlIdentifiesSession` | src/api/apiClient.ts:50 | different sessions have different status paths |
| `ApiClient.ControlUrlIdentifiesTarget` | src/api/apiClient.ts:61 | a control push's path determines both the session and the channel |
| `StatusPanel.IsInDanger` | src/components/StatusPanel.tsx:24 | danger exactly when failed-state time > 60; the risk is then above 50 |
| `StatusPanel.IsCritical` | src/components/StatusPanel.tsx:25 | critical exactly when failed-state time > 90; critical implies danger and a risk above 75 |
| `StatusPanel.IsTempInRange` | src/components/StatusPanel.tsx:31-35 | in range exactly when minimum ≤ temperature ≤ maximum, both ends included (a temperature above the maximum shows DANGER, as in `PanelScenarios`) |
| `StatusPanel.MeltdownRisk` | src/components/StatusPanel.tsx:26-29 | the risk never exceeds 100; it is 100 exactly when failed-state time ≥ 120; below that it is failed-state time / 120 × 100; it is non-negative for a non-negative time |
| `StatusPanel.MeltdownRiskMonotone` | src/components/StatusPanel.tsx:26-29 | a longer time in the failed state never lowers the risk |
| `StatusPanel.MessageSeverity` | src/components/StatusPanel.tsx:61 | "error" exactly when failed-state time > 90, "warning" exactly when it is in (60, 90], "info" exactly when it is ≤ 60 |
| `StatusPanel.ProgressColor` | src/components/StatusPanel.tsx:77 | the same thresholds, with "success" in place of "info" |
| `StatusPanel.ProgressColorFollowsSeverity` | src/components/StatusPanel.tsx:77 | the gauge colour is the message severity, with success for info |
| `StatusPanel.TopAlertFor` | src/components/StatusPanel.tsx:43-57 | meltdown shows the fixed meltdown alert even when an error is present; otherwise a non-empty error shows an error alert; otherwise there is no top alert |
| `StatusPanel.Render` | src/components/StatusPanel.tsx:43-93 | the status-message alert appears exactly when the message is non-empty and there is no meltdown, with the message severity; the gauges appear exactly when there is no meltdown, with the risk, the colour and SAFE exactly when the inner tank is within its range |
| `StatusPanel.MeltdownHidesEverythingElse` | src/components/StatusPanel.tsx:43-68 | in meltdown the panel shows only the meltdown alert, whatever the error |
| `StatusPanel.PanelScenarios` | src/components/StatusPanel.test.tsx:61-164 | failed-state times 30, 75 and 95 give info, warning and error; 60 gives risk 50; an inner tank at 100 with range [50, 70] shows DANGER; an error is shown as an error alert |

## Left out

- HTTP transport: axios, the base URL, the 3000 ms request timeout, and the typing of
  `response.data`. Each response is an outcome parameter. The coordinator's outcome
  parameters stand for what `RateLimiter.Send` returns. The coordinator does not call the
  limiter itself.
- `value.toString()`: the push body is the real value itself. Number-to-text formatting is
  not modelled.
- Timers: `setInterval`, `setTimeout`, `clearInterval` and effect re-subscription are not
  modelled. They become explicit `Tick` and `ActivityExpired` calls. The model does not track
  which of several pending activity timeouts fires. `ActivityExpired` may be issued at any
  time.
- RateLimiter.Send: the wait is returned, not slept. The clock read after the wait is a
  parameter, and a `requires` says it is no earlier than the wait asks for. That is an
  assumption about the clock: `Date.now` may be adjusted backwards or coarsened, and then the
  real spacing can be below 166 ms, which the model does not capture.
- Concurrency: the race where two callers read `lastRequestTime` before either writes it is
  not modelled. Neither are results that land after a session change. A tick's results are
  applied in the order fetch, push, re-fetch.
- Interleaving: each command runs to completion, with all its outcomes applied, before the
  next one starts. In the model no tick, edit or activity timeout runs between a command's
  requests and their results. The code awaits, so such events can run in between. The
  restart window is the one that matters. `startNewSession` clears meltdown
  (src/hooks/useSession.ts:44) before it awaits the create (:45). That restarts polling of
  the OLD session id (:92-105) and makes edits acceptable again (:85), so ticks fetch from and
  drain the queue to the old session while the create is pending. If the old session still
  reports a failed-state time of 120 or more, meltdown latches again (:63-65). The new
  session's first fetch below the threshold then only clears the error (:60-61), so the new
  session starts in meltdown. `Started` and `MeltdownLatches` do not capture this window.
- Session.Started: the loading flag is true only inside `Coordinator.StartNewSession`, where
  it is set first. The transition function states only the final state, in which it is false.
- The error type: every failure is modelled as an `Error` value with a message. A thrown
  non-Error, and a non-string `message` field in a 500 body, are not modelled.
- `console.error` logging is not modelled. Neither are JSX markup, `toFixed` display
  formatting, the restart button's wiring, the control panel (which only forwards slider
  values) or the dashboard page.

=== FILE: api_client.dfy ===
/** The transport limiter and the three request builders of the remote session client.
    The clock is an input; the HTTP exchange itself is an outcome parameter. */
module ApiClient {
  import opened Wrappers
  import opened Types

  /** Minimum spacing, in milliseconds, between two dispatched requests. */
  const MinRequestInterval: int := 166

  /** The message of the domain error that signals a meltdown. */
  const MeltdownMessage: string := "CORE MELTDOWN IMMINENT, EVACUATE"

  const SessionsPath: string := "/sessions"

  /** A failure raised by a request. An axios error carries the response status and the
      `message` field of the response body when a response arrived (both None for a network
      error or a timeout); a plain error is any other Error, such as the relabelled fault. */
  datatype ApiError =
    | AxiosError(status: Option<int>, dataMessage: Option<string>, message: string)
    | PlainError(message: string)

  datatype HttpMethod = Get | Post

  /** What is handed to the HTTP layer: method, path, body and content type. */
  datatype Request = Request(httpMethod: HttpMethod, url: string, body: Option<real>, contentType: Option<string>)

  /** How long a request waits before dispatch, given the clock and the last dispatch time. */
  function WaitBeforeDispatch(now: int, lastRequestTime: int): (wait: int)
    ensures wait >= 0
    ensures wait == 0 <==> now - lastRequestTime >= MinRequestInterval
    ensures wait > 0 ==> now + wait == lastRequestTime + MinRequestInterval
    ensures now >= lastRequestTime ==> wait <= MinRequestInterval
  {
    var timeSinceLastRequest := now - lastRequestTime;
    if timeSinceLastRequest < MinRequestInterval then MinRequestInterval - timeSinceLastRequest else 0
  }

  /** Any dispatch that happens no earlier than the wait asks for is spaced from the previous one. */
  lemma DispatchIsSpaced(now: int, lastRequestTime: int, dispatchedAt: int)
    requires dispatchedAt >= now + WaitBeforeDispatch(now, lastRequestTime)
    ensures dispatchedAt >= lastRequestTime + MinRequestInterval
  {
  }

  /** With the initial marker 0, the first request does not wait once the clock has passed the spacing. */
  lemma FirstRequestDoesNotWait(now: int)
    requires now >= MinRequestInterval
    ensures WaitBeforeDispatch(now, 0) == 0
  {
  }

  predicate IsServerFault(e: ApiError)
  {
    e.AxiosError? && e.status == Some(500)
  }

  /** The error a request raises for a failure of the HTTP layer. */
  function Relabel(e: ApiError): (r: ApiError)
    ensures IsServerFault(e) && e.dataMessage.Some? && e.dataMessage.value != "" ==> r == PlainError(e.dataMessage.value)
    ensures IsServerFault(e) && (e.dataMessage.None? || e.dataMessage.value == "") ==> r == PlainError(MeltdownMessage)
    ensures !IsServerFault(e) ==> r == e
  {
    if IsServerFault(e) then
      PlainError(if e.dataMessage.Some? && e.dataMessage.value != "" then e.dataMessage.value else MeltdownMessage)
    else
      e
  }

  /** A relabelled fault is never a server fault and always carries a non-empty message. */
  lemma RelabelledFaultHasMessage(e: ApiError)
    requires IsServerFault(e)
    ensures !IsServerFault(Relabel(e)) && Relabel(e).message != ""
  {
  }

  function CreateSession(): (r: Request)
    ensures r.httpMethod == Post && r.body.None? && r.contentType.None? && r.url == SessionsPath
  {
    Request(Post, SessionsPath, None, None)
  }

  /** The status resource of a session: the sessions path, a slash, then the id. */
  function GetSystemStatus(sessionId: string): (r: Request)
    ensures r.httpMethod == Get && r.body.None? && r.contentType.None?
    ensures |r.url| == |SessionsPath| + 1 + |sessionId|
    ensures r.url[..|SessionsPath| + 1] == SessionsPath + "/" && r.url[|SessionsPath| + 1..] == sessionId
  {
    Request(Get, SessionsPath + "/" + sessionId, None, None)
  }

  /** A control push: posted under the session's resource, the value as a plain-text body. */
  function UpdateControl(sessionId: string, controlName: ControlName, value: real): (r: Request)
    ensures r.httpMethod == Post && r.body == Some(value) && r.contentType == Some("text/plain")
    ensures r.url == GetSystemStatus(sessionId).url + "/inputs/" + Name(controlName)
  {
    Request(Post, SessionsPath + "/" + sessionId + "/inputs/" + Name(controlName), Some(value), Some("text/plain"))
  }

  /** Different sessions have different status paths. */
  lemma StatusUrlIdentifiesSession(a: string, b: string)
    requires GetSystemStatus(a).url == GetSystemStatus(b).url
    ensures a == b
  {
  }

  /** The last six characters of a channel's wire name: distinct for the three channels. */
  lemma NameTailsDiffer(m: ControlName, n: ControlName)
    requires Name(m)[|Name(m)| - 6..] == Name(n)[|Name(n)| - 6..]
    ensures m == n
  {
  }

  /** The last `k` characters of a concatenation come from its right part. */
  lemma TailOfConcat(p: string, q: string, k: nat)
    requires k <= |q|
    ensures (p + q)[|p + q| - k..] == q[|q| - k..]
  {
    assert (p + q)[|p|..] == q;
    assert (p + q)[|p + q| - k..] == (p + q)[|p|..][|q| - k..];
  }

  /** Equal strings with the same right part have the same left part. */
  lemma CancelRight(x: string, y: string, z: string)
    requires x + z == y + z
    ensures x == y
  {
    assert x == (x + z)[..|x|];
    assert y == (y + z)[..|y|];
  }

  /** A prefix followed by a channel's wire name determines both. */
  lemma NameSuffixIdentifies(x: string, y: string, m: ControlName, n: ControlName)
    requires x + Name(m) == y + Name(n)
    ensures x == y && m == n
  {
    TailOfConcat(x, Name(m), 6);
    TailOfConcat(y, Name(n), 6);
    NameTailsDiffer(m, n);
    CancelRight(x, y, Name(m));
  }

  /** A control push's path determines both the session and the channel. */
  lemma ControlUrlIdentifiesTarget(a: string, b: string, m: ControlName, n: ControlName, v: real, w: real)
    requires UpdateControl(a, m, v).url == UpdateControl(b, n, w).url
    ensures a == b && m == n
  {
    NameSuffixIdentifies(GetSystemStatus(a).url + "/inputs/", GetSystemStatus(b).url + "/inputs/", m, n);
    CancelRight(GetSystemStatus(a).url, GetSystemStatus(b).url, "/inputs/");
    StatusUrlIdentifiesSession(a, b);
  }

  /** Every pair of consecutive dispatch times is at least the minimum spacing apart. */
  ghost predicate Spaced(times: seq<int>)
  {
    forall i :: 0 < i < |times| ==> times[i - 1] + MinRequestInterval <= times[i]
  }

  /** In a spaced log, dispatches k places apart are at least k spacings apart. */
  lemma {:induction false} SpacedApart(times: seq<int>, i: int, j: int)
    requires Spaced(times) && 0 <= i <= j < |times|
    ensures times[i] + MinRequestInterval * (j - i) <= times[j]
  {
    if i < j {
      SpacedApart(times, i, j - 1);
    }
  }

  /** The process-wide limiter: the time of the last dispatch, shared by every request.
      The ghost log records every dispatch time. */
  class RateLimiter {
    var lastRequestTime: int
    ghost var dispatchTimes: seq<int>

    ghost predicate Valid()
      reads this
    {
      && Spaced(dispatchTimes)
      && (if dispatchTimes == [] then lastRequestTime == 0 else Last(dispatchTimes) == lastRequestTime)
      && (dispatchTimes != [] ==> dispatchTimes[0] >= MinRequestInterval)
    }

    constructor ()
      ensures Valid() && lastRequestTime == 0 && dispatchTimes == []
    {
      lastRequestTime := 0;
      dispatchTimes := [];
    }

    /** Sends one request. `now` is the clock read on entry, `dispatchedAt` the clock read
        after the wait, assumed no earlier than the limiter asked for; `response` is what the HTTP layer returns. */
    method Send<T>(request: Request, now: int, dispatchedAt: int, response: Result<T, ApiError>)
      returns (wait: int, result: Result<T, ApiError>)
      requires Valid()
      requires dispatchedAt >= now + WaitBeforeDispatch(now, lastRequestTime)
      modifies this
      ensures Valid()
      ensures wait == WaitBeforeDispatch(now, old(lastRequestTime))
      ensures lastRequestTime == dispatchedAt >= old(lastRequestTime) + MinRequestInterval
      ensures dispatchTimes == old(dispatchTimes) + [dispatchedAt]
      ensures response.Ok? ==> result == response
      ensures response.Err? ==> result == Err(Relabel(response.error))
    {
      var timeSinceLastRequest := now - lastRequestTime;
      wait := 0;
      if timeSinceLastRequest < MinRequestInterval {
        wait := MinRequestInterval - timeSinceLastRequest;
      }
      lastRequestTime := dispatchedAt;
      dispatchTimes := dispatchTimes + [dispatchedAt];
      match response {
        case Ok(_) =>
          result := response;
        case Err(e) =>
          result := Err(Relabel(e));
      }
    }
  }
}

=== FILE: session.dfy ===
/** The session coordinator. Its state is a `Coordinator` object whose methods are the hook's
    commands; each method is proved to agree with a transition function on `State` that also
    lists the requests the command dispatched. Network outcomes are parameters. */
module Session {
  import opened Wrappers
  import opened Types
  import opened ApiClient

  const BasePollInterval: nat := 1000
  const ActiveControlPollInterval: nat := 200

  const CreateFailedMessage: string := "Failed to create new session"
  const FetchFailedMessage: string := "Failed to fetch system status"

  function UpdateFailedMessage(name: ControlName): string
  {
    "Failed to update " + Name(name)
  }

  /** One queued operator edit. */
  datatype ControlUpdate = ControlUpdate(controlName: ControlName, value: real)

  /** The hook's state, field by field. */
  datatype State = State(
    sessionId: Option<string>,
    status: Option<SystemStatus>,
    error: Option<string>,
    isLoading: bool,
    isActiveControl: bool,
    controlUpdateQueue: seq<ControlUpdate>,
    meltdown: bool)

  const Initial: State := State(None, None, None, false, false, [], false)

  /** The state a command leaves and the requests it dispatched, in order. */
  datatype Effect = Effect(next: State, sent: seq<Request>)

  /** A session id counts only when it is present and non-empty. */
  predicate HasSession(s: State)
  {
    s.sessionId.Some? && s.sessionId.value != ""
  }

  /** The polling period, or None when no polling is scheduled. */
  function PollIntervalFor(s: State): (interval: Option<nat>)
    ensures interval.None? <==> !HasSession(s) || s.meltdown
    ensures interval == Some(ActiveControlPollInterval) <==> HasSession(s) && !s.meltdown && s.isActiveControl
    ensures interval == Some(BasePollInterval) <==> HasSession(s) && !s.meltdown && !s.isActiveControl
  {
    if !HasSession(s) || s.meltdown then None
    else if s.isActiveControl then Some(ActiveControlPollInterval)
    else Some(BasePollInterval)
  }

  predicate IsControlPush(r: Request)
  {
    r.httpMethod == Post && r.body.Some?
  }

  /** Every control push among `sent` is `push`. */
  predicate PushesOnly(sent: seq<Request>, push: Request)
  {
    forall i :: 0 <= i < |sent| && IsControlPush(sent[i]) ==> sent[i] == push
  }

  function PushOf(id: string, u: ControlUpdate): Request
  {
    UpdateControl(id, u.controlName, u.value)
  }

  /** Fetch the status of session `id` and apply the outcome. */
  function Fetched(s: State, id: string, outcome: Result<SystemStatus, ApiError>): (e: Effect)
    ensures e.sent == [GetSystemStatus(id)]
    ensures e.next.(status := s.status, error := s.error, meltdown := s.meltdown) == s
    ensures s.meltdown ==> e.next.meltdown
    ensures outcome.Ok? ==> e.next.status == Some(outcome.value)
    ensures outcome.Ok? && outcome.value.meta.failedStateTime >= MeltdownThreshold ==>
              e.next.meltdown && e.next.error == Some(MeltdownMessage)
    ensures outcome.Ok? && outcome.value.meta.failedStateTime < MeltdownThreshold ==>
              e.next.meltdown == s.meltdown && e.next.error.None?
    ensures outcome.Err? ==> e.next.status == s.status
    ensures outcome.Err? && outcome.error.message == MeltdownMessage ==>
              e.next.meltdown && e.next.error == Some(MeltdownMessage)
    ensures outcome.Err? && outcome.error.message != MeltdownMessage ==>
              e.next.meltdown == s.meltdown && e.next.error == Some(FetchFailedMessage)
  {
    var next :=
      match outcome
      case Ok(snapshot) =>
        var replaced := s.(status := Some(snapshot), error := None);
        if snapshot.meta.failedStateTime >= MeltdownThreshold then
          replaced.(meltdown := true, error := Some(MeltdownMessage))
        else
          replaced
      case Err(err) =>
        if err.message == MeltdownMessage then s.(meltdown := true, error := Some(err.message))
        else s.(error := Some(FetchFailedMessage));
    Effect(next, [GetSystemStatus(id)])
  }

  /** Push one update to session `id`; on success a status fetch follows, on failure the
      error names the channel. */
  function Pushed(s: State, id: string, u: ControlUpdate,
                  push: Result<ControlUpdateResponse, ApiError>, fetch: Result<SystemStatus, ApiError>): (e: Effect)
    ensures |e.sent| > 0 && e.sent[0] == PushOf(id, u) && PushesOnly(e.sent, PushOf(id, u))
    ensures push.Ok? ==> e.sent == [PushOf(id, u), GetSystemStatus(id)] && e.next == Fetched(s, id, fetch).next
    ensures push.Err? ==> e == Effect(s.(error := Some(UpdateFailedMessage(u.controlName))), [PushOf(id, u)])
  {
    if push.Ok? then
      var fetched := Fetched(s, id, fetch);
      Effect(fetched.next, [PushOf(id, u)] + fetched.sent)
    else
      Effect(s.(error := Some(UpdateFailedMessage(u.controlName))), [PushOf(id, u)])
  }

  /** Whether the queue would be drained now. */
  predicate CanDrain(s: State)
  {
    HasSession(s) && s.controlUpdateQueue != [] && !s.meltdown
  }

  /** Drain the queue: send only its last entry and empty it. */
  function Drained(s: State, push: Result<ControlUpdateResponse, ApiError>,
                   fetch: Result<SystemStatus, ApiError>): (e: Effect)
    ensures !CanDrain(s) ==> e == Effect(s, [])
    ensures CanDrain(s) ==>
              var id := s.sessionId.value;
              var last := Last(s.controlUpdateQueue);
              && e.next.controlUpdateQueue == []
              && e.next.sessionId == s.sessionId
              && e.next.isActiveControl == s.isActiveControl
              && e.next.isLoading == s.isLoading
              && |e.sent| > 0 && e.sent[0] == PushOf(id, last)
              && PushesOnly(e.sent, PushOf(id, last))
              && (push.Err? ==> e.sent == [PushOf(id, last)]
                                && e.next.error == Some(UpdateFailedMessage(last.controlName))
                                && e.next.status == s.status && e.next.meltdown == s.meltdown)
              && (push.Ok? ==> e.sent[1..] == [GetSystemStatus(id)]
                               && e.next == Fetched(s.(controlUpdateQueue := []), id, fetch).next)
    ensures s.meltdown ==> e.next.meltdown
  {
    if !CanDrain(s) then Effect(s, [])
    else Pushed(s.(controlUpdateQueue := []), s.sessionId.value, Last(s.controlUpdateQueue), push, fetch)
  }

  /** One firing of the polling interval: fetch the status and drain the queue. Both are
      started before either result arrives, so whether to drain, and what, is decided on the
      state the tick fires in; results are applied in order fetch, push, re-fetch. */
  function Ticked(s: State, fetch: Result<SystemStatus, ApiError>,
                  push: Result<ControlUpdateResponse, ApiError>, refetch: Result<SystemStatus, ApiError>): (e: Effect)
    ensures PollIntervalFor(s).None? ==> e == Effect(s, [])
    ensures PollIntervalFor(s).Some? ==>
              var id := s.sessionId.value;
              && |e.sent| > 0 && e.sent[0] == GetSystemStatus(id)
              && e.next.controlUpdateQueue == []
              && e.next.sessionId == s.sessionId
              && e.next.isActiveControl == s.isActiveControl
              && e.next.isLoading == s.isLoading
              && (s.controlUpdateQueue == [] ==> e == Fetched(s, id, fetch))
              && (s.controlUpdateQueue != [] ==>
                    |e.sent| > 1 && e.sent[1] == PushOf(id, Last(s.controlUpdateQueue))
                    && PushesOnly(e.sent, PushOf(id, Last(s.controlUpdateQueue))))
    ensures PollIntervalFor(s).Some? && s.controlUpdateQueue != [] ==>
              var id := s.sessionId.value;
              var last := Last(s.controlUpdateQueue);
              var fetched := Fetched(s.(controlUpdateQueue := []), id, fetch).next;
              && (push.Ok? ==> e.sent == [GetSystemStatus(id), PushOf(id, last), GetSystemStatus(id)]
                               && e.next == Fetched(fetched, id, refetch).next)
              && (push.Err? ==> e.sent == [GetSystemStatus(id), PushOf(id, last)]
                                && e.next == fetched.(error := Some(UpdateFailedMessage(last.controlName))))
    ensures s.meltdown ==> e.next.meltdown
  {
    if PollIntervalFor(s).None? then Effect(s, [])
    else
      var id := s.sessionId.value;
      if s.controlUpdateQueue == [] then Fetched(s, id, fetch)
      else
        var fetched := Fetched(s.(controlUpdateQueue := []), id, fetch);
        var pushed := Pushed(fetched.next, id, Last(s.controlUpdateQueue), push, refetch);
        Effect(pushed.next, fetched.sent + pushed.sent)
  }

  /** Start a new session: clear meltdown, create, then fetch the new session's status.
      The queue and the activity flag are left as they were. */
  function Started(s: State, create: Result<SessionResponse, ApiError>,
                   fetch: Result<SystemStatus, ApiError>): (e: Effect)
    ensures !e.next.isLoading
    ensures e.next.controlUpdateQueue == s.controlUpdateQueue && e.next.isActiveControl == s.isActiveControl
    ensures |e.sent| > 0 && e.sent[0] == CreateSession()
    ensures create.Ok? ==>
              var id := create.value.id;
              && e.next.sessionId == Some(id)
              && e.sent == [CreateSession(), GetSystemStatus(id)]
              && e.next == Fetched(s.(sessionId := Some(id), error := None, meltdown := false), id, fetch).next.(isLoading := false)
    ensures create.Err? ==>
              && e.sent == [CreateSession()]
              && e.next.sessionId == s.sessionId && e.next.status == s.status
              && e.next.error == Some(CreateFailedMessage) && !e.next.meltdown
  {
    var starting := s.(isLoading := true, meltdown := false);
    match create
    case Ok(session) =>
      var fetched := Fetched(starting.(sessionId := Some(session.id), error := None), session.id, fetch);
      Effect(fetched.next.(isLoading := false), [CreateSession()] + fetched.sent)
    case Err(_) =>
      Effect(starting.(error := Some(CreateFailedMessage), isLoading := false), [CreateSession()])
  }

  /** Queue an operator edit: appended after everything already queued. */
  function Edited(s: State, u: ControlUpdate): (r: State)
    ensures !HasSession(s) || s.meltdown ==> r == s
    ensures HasSession(s) && !s.meltdown ==>
              && r.controlUpdateQueue == s.controlUpdateQueue + [u]
              && r.isActiveControl
              && r.(controlUpdateQueue := s.controlUpdateQueue, isActiveControl := s.isActiveControl) == s
  {
    if !HasSession(s) || s.meltdown then s
    else s.(controlUpdateQueue := s.controlUpdateQueue + [u], isActiveControl := true)
  }

  /** The activity timeout fired. */
  function Expired(s: State): (r: State)
    ensures !r.isActiveControl && r.(isActiveControl := s.isActiveControl) == s
  {
    s.(isActiveControl := false)
  }

  /** The commands the presentation layer and the timers issue. */
  datatype Command =
    | StartNewSession(create: Result<SessionResponse, ApiError>, fetch: Result<SystemStatus, ApiError>)
    | UpdateControlValue(update: ControlUpdate)
    | Tick(fetch: Result<SystemStatus, ApiError>, push: Result<ControlUpdateResponse, ApiError>,
           refetch: Result<SystemStatus, ApiError>)
    | ActivityExpired

  function Step(s: State, c: Command): Effect
  {
    match c
    case StartNewSession(create, fetch) => Started(s, create, fetch)
    case UpdateControlValue(u) => Effect(Edited(s, u), [])
    case Tick(fetch, push, refetch) => Ticked(s, fetch, push, refetch)
    case ActivityExpired => Effect(Expired(s), [])
  }

  /** Run commands in order through `step`; the requests of all of them, in order. */
  function RunWith(step: (State, Command) -> Effect, s: State, cs: seq<Command>): Effect
    decreases |cs|
  {
    if cs == [] then Effect(s, [])
    else
      var first := step(s, cs[0]);
      var rest := RunWith(step, first.next, cs[1..]);
      Effect(rest.next, first.sent + rest.sent)
  }

  /** Run commands through the coordinator. */
  function Run(s: State, cs: seq<Command>): Effect
  {
    RunWith(Step, s, cs)
  }

  /** The hook's state as a mutable object. */
  class Coordinator {
    var sessionId: Option<string>
    var status: Option<SystemStatus>
    var error: Option<string>
    var isLoading: bool
    var isActiveControl: bool
    var controlUpdateQueue: seq<ControlUpdate>
    var meltdown: bool

    function Model(): State
      reads this
    {
      State(sessionId, status, error, isLoading, isActiveControl, controlUpdateQueue, meltdown)
    }

    constructor ()
      ensures Model() == Initial
    {
      sessionId := None;
      status := None;
      error := None;
      isLoading := false;
      isActiveControl := false;
      controlUpdateQueue := [];
      meltdown := false;
    }

    function PollInterval(): (interval: Option<nat>)
      reads this
      ensures interval.None? <==> !HasSession(Model()) || meltdown
      ensures interval.Some? ==>
                interval.value == if isActiveControl then ActiveControlPollInterval else BasePollInterval
    {
      PollIntervalFor(Model())
    }

    method FetchStatus(id: string, outcome: Result<SystemStatus, ApiError>) returns (sent: seq<Request>)
      modifies this
      ensures Effect(Model(), sent) == Fetched(old(Model()), id, outcome)
    {
      sent := [GetSystemStatus(id)];
      match outcome {
        case Ok(snapshot) =>
          status := Some(snapshot);
          error := None;
          if snapshot.meta.failedStateTime >= MeltdownThreshold {
            meltdown := true;
            error := Some(MeltdownMessage);
          }
        case Err(err) =>
          if err.message == MeltdownMessage {
            meltdown := true;
            error := Some(err.message);
          } else {
            error := Some(FetchFailedMessage);
          }
      }
    }

    method PushUpdate(id: string, u: ControlUpdate, push: Result<ControlUpdateResponse, ApiError>,
                      fetch: Result<SystemStatus, ApiError>) returns (sent: seq<Request>)
      modifies this
      ensures Effect(Model(), sent) == Pushed(old(Model()), id, u, push, fetch)
    {
      sent := [UpdateControl(id, u.controlName, u.value)];
      if push.Ok? {
        var fetched := FetchStatus(id, fetch);
        sent := sent + fetched;
      } else {
        error := Some(UpdateFailedMessage(u.controlName));
      }
    }

    method ProcessControlQueue(push: Result<ControlUpdateResponse, ApiError>,
                               fetch: Result<SystemStatus, ApiError>) returns (sent: seq<Request>)
      modifies this
      ensures Effect(Model(), sent) == Drained(old(Model()), push, fetch)
    {
      if !HasSession(Model()) || |controlUpdateQueue| == 0 || meltdown {
        return [];
      }
      var lastUpdate := controlUpdateQueue[|controlUpdateQueue| - 1];
      controlUpdateQueue := [];
      sent := PushUpdate(sessionId.value, lastUpdate, push, fetch);
    }

    method StartNewSession(create: Result<SessionResponse, ApiError>, fetch: Result<SystemStatus, ApiError>)
      returns (sent: seq<Request>)
      modifies this
      ensures Effect(Model(), sent) == Started(old(Model()), create, fetch)
    {
      isLoading := true;
      meltdown := false;
      sent := [CreateSession()];
      match create {
        case Ok(session) =>
          sessionId := Some(session.id);
          error := None;
          var fetched := FetchStatus(session.id, fetch);
          sent := sent + fetched;
        case Err(_) =>
          error := Some(CreateFailedMessage);
      }
      isLoading := false;
    }

    method UpdateControlValue(controlName: ControlName, value: real)
      modifies this
      ensures Model() == Edited(old(Model()), ControlUpdate(controlName, value))
    {
      if !HasSession(Model()) || meltdown {
        return;
      }
      controlUpdateQueue := controlUpdateQueue + [ControlUpdate(controlName, value)];
      isActiveControl := true;
    }

    method ActivityExpired()
      modifies this
      ensures Model() == Expired(old(Model()))
    {
      isActiveControl := false;
    }

    method Tick(fetch: Result<SystemStatus, ApiError>, push: Result<ControlUpdateResponse, ApiError>,
                refetch: Result<SystemStatus, ApiError>) returns (sent: seq<Request>)
      modifies this
      ensures Effect(Model(), sent) == Ticked(old(Model()), fetch, push, refetch)
    {
      if !HasSession(Model()) || meltdown {
        return [];
      }
      var id := sessionId.value;
      var pending := controlUpdateQueue;
      if |pending| > 0 {
        controlUpdateQueue := [];
      }
      sent := FetchStatus(id, fetch);
      if |pending| > 0 {
        var pushed := PushUpdate(id, pending[|pending| - 1], push, refetch);
        sent := sent + pushed;
      }
    }
  }
}

=== FILE: session_properties.dfy ===
/** Properties of the session coordinator over single commands and over command sequences. */
module SessionProperties {
  import opened Wrappers
  import opened Types
  import opened ApiClient
  import opened Session

  predicate NoRestart(cs: seq<Command>)
  {
    forall i :: 0 <= i < |cs| ==> !cs[i].StartNewSession?
  }

  /** Each edit as an UpdateControlValue command. */
  function Edits(us: seq<ControlUpdate>): (cs: seq<Command>)
    ensures |cs| == |us| && forall i :: 0 <= i < |us| ==> cs[i] == UpdateControlValue(us[i])
  {
    seq(|us|, i requires 0 <= i < |us| => UpdateControlValue(us[i]))
  }

  /** Running a non-empty sequence is running its first command, then the rest. */
  lemma RunCons(s: State, cs: seq<Command>)
    requires cs != []
    ensures Run(s, cs) == Effect(Run(Step(s, cs[0]).next, cs[1..]).next,
                                 Step(s, cs[0]).sent + Run(Step(s, cs[0]).next, cs[1..]).sent)
  {
  }

  /** Running one command is taking its step. */
  lemma RunSingle(s: State, c: Command)
    ensures Run(s, [c]) == Step(s, c)
  {
    RunCons(s, [c]);
    assert [c][1..] == [];
  }

  /** Running two command sequences one after the other is running their concatenation,
      whatever the step function. */
  lemma {:induction false} RunWithAppend(step: (State, Command) -> Effect, s: State, a: seq<Command>, b: seq<Command>)
    ensures var first := RunWith(step, s, a);
            var second := RunWith(step, first.next, b);
            RunWith(step, s, a + b) == Effect(second.next, first.sent + second.sent)
    decreases |a|
  {
    if a == [] {
      assert a + b == b;
    } else {
      assert (a + b)[0] == a[0] && (a + b)[1..] == a[1..] + b;
      RunWithAppend(step, step(s, a[0]).next, a[1..], b);
    }
  }

  lemma RunAppend(s: State, a: seq<Command>, b: seq<Command>)
    ensures Run(s, a + b) == Effect(Run(Run(s, a).next, b).next, Run(s, a).sent + Run(Run(s, a).next, b).sent)
  {
    RunWithAppend(Step, s, a, b);
  }

  /** Only starting a new session can clear meltdown. */
  lemma StepKeepsMeltdown(s: State, c: Command)
    requires !c.StartNewSession?
    ensures s.meltdown ==> Step(s, c).next.meltdown
  {
  }

  /** Once in meltdown, no command other than a restart dispatches a request or changes
      anything but the activity flag. */
  lemma {:induction false} MeltdownLatches(s: State, cs: seq<Command>)
    requires s.meltdown && NoRestart(cs)
    ensures Run(s, cs).next.meltdown && Run(s, cs).sent == []
    ensures Run(s, cs).next.(isActiveControl := s.isActiveControl) == s
    decreases |cs|
  {
    if cs != [] {
      var first := Step(s, cs[0]);
      assert first.sent == [] && first.next.(isActiveControl := s.isActiveControl) == s;
      assert NoRestart(cs[1..]) by {
        forall i | 0 <= i < |cs[1..]| ensures !cs[1..][i].StartNewSession? {
          assert cs[1..][i] == cs[i + 1];
        }
      }
      MeltdownLatches(first.next, cs[1..]);
    }
  }

  /** A snapshot at the threshold stops all traffic until the next restart. */
  lemma ThresholdMeltdownStopsTraffic(s: State, id: string, snapshot: SystemStatus, cs: seq<Command>)
    requires snapshot.meta.failedStateTime >= MeltdownThreshold && NoRestart(cs)
    ensures Run(Fetched(s, id, Ok(snapshot)).next, cs).sent == []
    ensures Run(Fetched(s, id, Ok(snapshot)).next, cs).next.error == Some(MeltdownMessage)
  {
    MeltdownLatches(Fetched(s, id, Ok(snapshot)).next, cs);
  }

  /** Edits made while a session is live and not in meltdown are appended, in order, to the
      queue; nothing is sent. */
  lemma {:induction false} EditsAreQueued(s: State, us: seq<ControlUpdate>)
    requires HasSession(s) && !s.meltdown && us != []
    ensures Run(s, Edits(us)) == Effect(s.(controlUpdateQueue := s.controlUpdateQueue + us, isActiveControl := true), [])
    decreases |us|
  {
    var first := Step(s, Edits(us)[0]);
    RunCons(s, Edits(us));
    assert first == Effect(s.(controlUpdateQueue := s.controlUpdateQueue + [us[0]], isActiveControl := true), []);
    assert Edits(us)[1..] == Edits(us[1..]);
    if |us| > 1 {
      EditsAreQueued(first.next, us[1..]);
      assert s.controlUpdateQueue + [us[0]] + us[1..] == s.controlUpdateQueue + us;
    } else {
      assert us == [us[0]] && Edits(us)[1..] == [];
    }
  }

  /** However many edits are made between two ticks, the next tick pushes only the last one,
      right after its status fetch, and leaves the queue empty. */
  lemma EditsThenTickPushesLast(s: State, us: seq<ControlUpdate>, fetch: Result<SystemStatus, ApiError>,
                                push: Result<ControlUpdateResponse, ApiError>, refetch: Result<SystemStatus, ApiError>)
    requires HasSession(s) && !s.meltdown && us != []
    ensures var e := Run(s, Edits(us) + [Tick(fetch, push, refetch)]);
            && |e.sent| > 1
            && e.sent[0] == GetSystemStatus(s.sessionId.value)
            && e.sent[1] == PushOf(s.sessionId.value, Last(us))
            && PushesOnly(e.sent, PushOf(s.sessionId.value, Last(us)))
            && e.next.controlUpdateQueue == []
  {
    EditsAreQueued(s, us);
    RunAppend(s, Edits(us), [Tick(fetch, push, refetch)]);
    var queued := Run(s, Edits(us)).next;
    assert Last(queued.controlUpdateQueue) == Last(us);
    RunSingle(queued, Tick(fetch, push, refetch));
  }

  /** An earlier edit to another channel is never pushed: the next tick drops it. */
  lemma EarlierEditToOtherChannelIsDropped(s: State, us: seq<ControlUpdate>, i: nat,
                                           fetch: Result<SystemStatus, ApiError>,
                                           push: Result<ControlUpdateResponse, ApiError>,
                                           refetch: Result<SystemStatus, ApiError>)
    requires HasSession(s) && !s.meltdown && i < |us|
    requires us[i].controlName != Last(us).controlName
    ensures PushOf(s.sessionId.value, us[i]) !in Run(s, Edits(us) + [Tick(fetch, push, refetch)]).sent
  {
    var id := s.sessionId.value;
    var sent := Run(s, Edits(us) + [Tick(fetch, push, refetch)]).sent;
    EditsThenTickPushesLast(s, us, fetch, push, refetch);
    if PushOf(id, us[i]) in sent {
      var k :| 0 <= k < |sent| && sent[k] == PushOf(id, us[i]);
      assert IsControlPush(sent[k]);
      ControlUrlIdentifiesTarget(id, id, us[i].controlName, Last(us).controlName, us[i].value, Last(us).value);
      assert false;
    }
  }

  /** Polling runs every 200 ms after an edit and every 1000 ms once the activity window lapses. */
  lemma PollingCadence(s: State, u: ControlUpdate)
    requires HasSession(s) && !s.meltdown
    ensures PollIntervalFor(Edited(s, u)) == Some(ActiveControlPollInterval)
    ensures PollIntervalFor(Expired(Edited(s, u))) == Some(BasePollInterval)
  {
  }

  /** A failed fetch that is not the meltdown error is transient: the error is reported, the
      snapshot kept, and polling goes on at the same rate. */
  lemma TransientFetchFailureKeepsPolling(s: State, id: string, err: ApiError)
    requires err.message != MeltdownMessage
    ensures var next := Fetched(s, id, Err(err)).next;
            next.error == Some(FetchFailedMessage) && next.status == s.status
            && PollIntervalFor(next) == PollIntervalFor(s)
  {
  }

  /** A server fault without a message of its own latches meltdown when it ends a fetch. */
  lemma ServerFaultWithoutMessageLatches(s: State, id: string, data: Option<string>, m: string)
    requires data.None? || data == Some("")
    ensures var next := Fetched(s, id, Err(Relabel(AxiosError(Some(500), data, m)))).next;
            next.meltdown && next.error == Some(MeltdownMessage) && PollIntervalFor(next).None?
  {
  }

  /** A server fault carrying any other message is treated as a transient fetch failure. */
  lemma ServerFaultWithOwnMessageIsTransient(s: State, id: string, text: string, m: string)
    requires text != "" && text != MeltdownMessage
    ensures var next := Fetched(s, id, Err(Relabel(AxiosError(Some(500), Some(text), m)))).next;
            next.meltdown == s.meltdown && next.error == Some(FetchFailedMessage)
  {
  }

  /** A failed push never latches meltdown, even when it carries the meltdown message. */
  lemma FailedPushNeverLatches(s: State, push: Result<ControlUpdateResponse, ApiError>,
                               fetch: Result<SystemStatus, ApiError>)
    requires CanDrain(s) && push.Err?
    ensures Drained(s, push, fetch).next.meltdown == s.meltdown
    ensures Drained(s, push, fetch).next.error == Some(UpdateFailedMessage(Last(s.controlUpdateQueue).controlName))
  {
  }

  /** The tick's drain reads the queue before its own fetch lands: even when that fetch latches
      meltdown, the pending entry is still pushed, and a re-fetch below the threshold then clears
      the error while meltdown stays latched. */
  lemma PushAfterLatchingFetch(s: State, fetch: Result<SystemStatus, ApiError>,
                               push: Result<ControlUpdateResponse, ApiError>,
                               refetch: Result<SystemStatus, ApiError>)
    requires PollIntervalFor(s).Some? && s.controlUpdateQueue != []
    requires fetch.Ok? && fetch.value.meta.failedStateTime >= MeltdownThreshold
    ensures Fetched(s.(controlUpdateQueue := []), s.sessionId.value, fetch).next.meltdown
    ensures var e := Ticked(s, fetch, push, refetch);
            && |e.sent| >= 2
            && e.sent[1] == PushOf(s.sessionId.value, Last(s.controlUpdateQueue))
            && e.next.meltdown
            && (push.Ok? && refetch.Ok? && refetch.value.meta.failedStateTime < MeltdownThreshold ==>
                  e.next.error.None?)
  {
  }

  // Scenarios

  function MockStatus(failedStateTime: real): SystemStatus
  {
    SystemStatus(
      Meta(100.0, failedStateTime),
      "OK",
      Readings(OuterTank(50.0, 20.0), InnerTank(55.0, 50.0, 60.0)),
      Controls(0.5, 1.0, 1.0))
  }

  const StartOk: Command := StartNewSession(Ok(SessionResponse("123")), Ok(MockStatus(0.0)))

  const QuietTick: Command := Tick(Ok(MockStatus(0.0)), Ok(ControlUpdateResponse("Success")), Ok(MockStatus(0.0)))

  /** A new session stores its id and first snapshot, ends loading, and polls every second;
      one tick fetches the status a second time. */
  lemma StartAndPollScenario()
    ensures var e := Run(Initial, [StartOk]);
            e.next.sessionId == Some("123") && e.next.status == Some(MockStatus(0.0))
            && !e.next.isLoading && PollIntervalFor(e.next) == Some(BasePollInterval)
    ensures Run(Initial, [StartOk, QuietTick]).sent
              == [CreateSession(), GetSystemStatus("123"), GetSystemStatus("123")]
  {
    RunSingle(Initial, StartOk);
    var started := Step(Initial, StartOk);
    RunSingle(started.next, QuietTick);
    assert [StartOk, QuietTick] == [StartOk] + [QuietTick];
    RunAppend(Initial, [StartOk], [QuietTick]);
  }

  /** Setting the heater to 0.8 speeds polling up and the next tick pushes exactly that value. */
  lemma HeaterEditScenario()
    ensures PollIntervalFor(Run(Initial, [StartOk, UpdateControlValue(ControlUpdate(Heater, 0.8))]).next)
              == Some(ActiveControlPollInterval)
    ensures Run(Initial, [StartOk, UpdateControlValue(ControlUpdate(Heater, 0.8)), QuietTick]).sent
              == [CreateSession(), GetSystemStatus("123"), GetSystemStatus("123"),
                  UpdateControl("123", Heater, 0.8), GetSystemStatus("123")]
  {
    var edit := UpdateControlValue(ControlUpdate(Heater, 0.8));
    RunSingle(Initial, StartOk);
    var s1 := Step(Initial, StartOk).next;
    RunSingle(s1, edit);
    var s2 := Step(s1, edit).next;
    RunSingle(s2, QuietTick);
    assert [StartOk, edit] == [StartOk] + [edit];
    RunAppend(Initial, [StartOk], [edit]);
    assert [StartOk, edit, QuietTick] == [StartOk, edit] + [QuietTick];
    RunAppend(Initial, [StartOk, edit], [QuietTick]);
  }

  /** A first snapshot at 120 latches meltdown with its message; a later edit changes nothing. */
  lemma MeltdownScenario()
    ensures var e := Run(Initial, [StartNewSession(Ok(SessionResponse("123")), Ok(MockStatus(120.0)))]);
            e.next.meltdown && e.next.error == Some(MeltdownMessage) && PollIntervalFor(e.next).None?
            && Edited(e.next, ControlUpdate(Heater, 0.8)) == e.next
  {
    RunSingle(Initial, StartNewSession(Ok(SessionResponse("123")), Ok(MockStatus(120.0))));
  }

  /** Restarting keeps the queue: an edit made under session "A" is pushed to session "B". */
  lemma RestartCarriesPendingEdit(s: State)
    requires s.sessionId == Some("A") && !s.meltdown && s.controlUpdateQueue == []
    ensures var restart := StartNewSession(Ok(SessionResponse("B")), Ok(MockStatus(0.0)));
            var e := Run(s, [UpdateControlValue(ControlUpdate(Heater, 0.8)), restart, QuietTick]);
            UpdateControl("B", Heater, 0.8) in e.sent && UpdateControl("A", Heater, 0.8) !in e.sent
  {
    var edit := UpdateControlValue(ControlUpdate(Heater, 0.8));
    var restart := StartNewSession(Ok(SessionResponse("B")), Ok(MockStatus(0.0)));
    RunSingle(s, edit);
    var s1 := Step(s, edit).next;
    RunSingle(s1, restart);
    var s2 := Step(s1, restart).next;
    RunSingle(s2, QuietTick);
    assert [edit, restart, QuietTick] == [edit] + ([restart] + [QuietTick]);
    RunAppend(s, [edit], [restart] + [QuietTick]);
    RunAppend(s1, [restart], [QuietTick]);
    var sent := Run(s, [edit, restart, QuietTick]).sent;
    assert sent == [CreateSession(), GetSystemStatus("B"), GetSystemStatus("B"),
                    UpdateControl("B", Heater, 0.8), GetSystemStatus("B")];
    if UpdateControl("A", Heater, 0.8) in sent {
      ControlUrlIdentifiesTarget("A", "B", Heater, Heater, 0.8, 0.8);
      assert false;
    }
  }
}

=== FILE: status_panel.dfy ===
/** What the status panel derives from a snapshot, the coordinator's error and the meltdown
    flag: thresholds, the meltdown-risk gauge, the inner-tank check, and which alerts and
    blocks are shown. Markup and number formatting are not modelled. */
module StatusPanel {
  import opened Wrappers
  import opened Types

  const DangerAfter: real := 60.0
  const CriticalAfter: real := 90.0

  /** Over 60 in the failed state: the message turns to a warning. */
  predicate IsInDanger(s: SystemStatus): (danger: bool)
    ensures danger <==> s.meta.failedStateTime > DangerAfter
    ensures danger ==> MeltdownRisk(s) > 50.0
  {
    s.meta.failedStateTime > DangerAfter
  }

  /** Over 90 in the failed state: the message turns to an error. Critical implies danger. */
  predicate IsCritical(s: SystemStatus): (critical: bool)
    ensures critical <==> s.meta.failedStateTime > CriticalAfter
    ensures critical ==> IsInDanger(s) && MeltdownRisk(s) > 75.0
  {
    s.meta.failedStateTime > CriticalAfter
  }

  /** Percentage of the way to meltdown, capped at 100. */
  function MeltdownRisk(s: SystemStatus): (risk: real)
    ensures risk <= 100.0
    ensures risk == 100.0 <==> s.meta.failedStateTime >= MeltdownThreshold
    ensures s.meta.failedStateTime < MeltdownThreshold ==> risk * MeltdownThreshold == s.meta.failedStateTime * 100.0
    ensures s.meta.failedStateTime >= 0.0 ==> risk >= 0.0
  {
    var proportional := s.meta.failedStateTime / MeltdownThreshold * 100.0;
    if proportional < 100.0 then proportional else 100.0
  }

  /** A longer time in the failed state never lowers the risk. */
  lemma MeltdownRiskMonotone(a: SystemStatus, b: SystemStatus)
    requires a.meta.failedStateTime <= b.meta.failedStateTime
    ensures MeltdownRisk(a) <= MeltdownRisk(b)
  {
  }

  /** The inner tank is SAFE within its range, both ends included. */
  predicate IsTempInRange(s: SystemStatus): (inRange: bool)
    ensures inRange <==> s.readings.innerTank.minimum <= s.readings.innerTank.temperature
                         && s.readings.innerTank.temperature <= s.readings.innerTank.maximum
    ensures s.readings.innerTank.minimum <= s.readings.innerTank.maximum ==>
              (s.readings.innerTank.temperature == s.readings.innerTank.minimum ==> inRange)
              && (s.readings.innerTank.temperature == s.readings.innerTank.maximum ==> inRange)
  {
    s.readings.innerTank.minimum <= s.readings.innerTank.temperature <= s.readings.innerTank.maximum
  }

  /** The severities and colours the panel chooses from. */
  datatype Tone = Error | Warning | Info | Success

  /** Severity of the status-message alert. */
  function MessageSeverity(s: SystemStatus): (tone: Tone)
    ensures tone == Error <==> s.meta.failedStateTime > CriticalAfter
    ensures tone == Warning <==> DangerAfter < s.meta.failedStateTime <= CriticalAfter
    ensures tone == Info <==> s.meta.failedStateTime <= DangerAfter
  {
    if IsCritical(s) then Error else if IsInDanger(s) then Warning else Info
  }

  /** Colour of the risk gauge. */
  function ProgressColor(s: SystemStatus): (tone: Tone)
    ensures tone == Error <==> s.meta.failedStateTime > CriticalAfter
    ensures tone == Warning <==> DangerAfter < s.meta.failedStateTime <= CriticalAfter
    ensures tone == Success <==> s.meta.failedStateTime <= DangerAfter
  {
    if IsCritical(s) then Error else if IsInDanger(s) then Warning else Success
  }

  /** The gauge follows the message severity, with success in place of info. */
  lemma ProgressColorFollowsSeverity(s: SystemStatus)
    ensures ProgressColor(s) == if MessageSeverity(s) == Info then Success else MessageSeverity(s)
  {
  }

  datatype TopAlert = MeltdownAlert | ErrorAlert(text: string) | NoTopAlert

  /** The alert at the top of the panel: meltdown first, then a non-empty error. */
  function TopAlertFor(error: Option<string>, meltdown: bool): (alert: TopAlert)
    ensures meltdown ==> alert == MeltdownAlert
    ensures !meltdown && error.Some? && error.value != "" ==> alert == ErrorAlert(error.value)
    ensures !meltdown && (error.None? || error.value == "") ==> alert == NoTopAlert
  {
    if meltdown then MeltdownAlert
    else if error.Some? && error.value != "" then ErrorAlert(error.value)
    else NoTopAlert
  }

  datatype MessageAlert = MessageAlert(severity: Tone, text: string)

  /** The risk gauge and the inner-tank verdict (true for SAFE, false for DANGER). */
  datatype Gauges = Gauges(risk: real, color: Tone, innerTankSafe: bool)

  datatype Panel = Panel(top: TopAlert, messageAlert: Option<MessageAlert>, gauges: Option<Gauges>)

  /** Everything the panel shows for one snapshot. */
  function Render(status: SystemStatus, error: Option<string>, meltdown: bool): (p: Panel)
    ensures p.top == TopAlertFor(error, meltdown)
    ensures p.messageAlert.Some? <==> status.message != "" && !meltdown
    ensures p.messageAlert.Some? ==> p.messageAlert.value == MessageAlert(MessageSeverity(status), status.message)
    ensures p.gauges.Some? <==> !meltdown
    ensures p.gauges.Some? ==> p.gauges.value.risk == MeltdownRisk(status)
                                 && p.gauges.value.color == ProgressColor(status)
                                 && (p.gauges.value.innerTankSafe <==> IsTempInRange(status))
  {
    Panel(
      TopAlertFor(error, meltdown),
      if status.message != "" && !meltdown then Some(MessageAlert(MessageSeverity(status), status.message)) else None,
      if !meltdown then Some(Gauges(MeltdownRisk(status), ProgressColor(status), IsTempInRange(status))) else None)
  }

  /** In meltdown the panel shows the fixed meltdown alert, whatever the error, and nothing else. */
  lemma MeltdownHidesEverythingElse(status: SystemStatus, error: Option<string>)
    ensures Render(status, error, true) == Panel(MeltdownAlert, None, None)
  {
  }

  /** The snapshot the panel's scenarios start from, with a chosen failed-state time and inner temperature. */
  function Sample(failedStateTime: real, innerTemperature: real): SystemStatus
  {
    SystemStatus(
      Meta(100.0, failedStateTime),
      "System nominal",
      Readings(OuterTank(30.0, 120.0), InnerTank(innerTemperature, 50.0, 70.0)),
      Controls(0.0, 0.0, 0.0))
  }

  /** The panel's scenarios: severities at 30, 75 and 95, risk 50 at 60, DANGER at 100 degrees. */
  lemma PanelScenarios()
    ensures Render(Sample(30.0, 60.0), None, false).messageAlert == Some(MessageAlert(Info, "System nominal"))
    ensures Render(Sample(75.0, 60.0), None, false).messageAlert == Some(MessageAlert(Warning, "System nominal"))
    ensures Render(Sample(95.0, 60.0), None, false).messageAlert == Some(MessageAlert(Error, "System nominal"))
    ensures Render(Sample(60.0, 60.0), None, false).gauges.value.risk == 50.0
    ensures !Render(Sample(30.0, 100.0), None, false).gauges.value.innerTankSafe
    ensures Render(Sample(30.0, 60.0), Some("Something went wrong"), false).top == ErrorAlert("Something went wrong")
  {
  }
}

=== FILE: types.dfy ===
/** The records exchanged with the reactor controller. Readings are exact reals: the
    logic built on them only compares them and divides once. */
module Types {

  datatype Meta = Meta(totalTime: real, failedStateTime: real)

  datatype OuterTank = OuterTank(temperature: real, volume: real)

  /** The inner tank's temperature with its safe range. */
  datatype InnerTank = InnerTank(temperature: real, minimum: real, maximum: real)

  datatype Readings = Readings(outerTank: OuterTank, innerTank: InnerTank)

  datatype Controls = Controls(heaterEnergyOutput: real, inTapFlow: real, outTapFlow: real)

  /** The failed-state time at which the reactor melts down: the coordinator latches
      meltdown there and the panel's risk gauge reaches 100 there. */
  const MeltdownThreshold: real := 120.0

  /** One status snapshot of a session. */
  datatype SystemStatus = SystemStatus(meta: Meta, message: string, readings: Readings, controls: Controls)

  datatype SessionResponse = SessionResponse(id: string)

  datatype ControlUpdateResponse = ControlUpdateResponse(message: string)

  /** The three control channels an operator can set. */
  datatype ControlName = Heater | InTap | OutTap

  /** The channel's name on the wire. */
  function Name(c: ControlName): string
  {
    match c
    case Heater => "heater"
    case InTap => "in_tap"
    case OutTap => "out_tap"
  }
}

=== FILE: wrappers.dfy ===
/** Optional values and success/failure results, used for nullable state and for the
    outcome of every request to the reactor controller. */
module Wrappers {

  datatype Option<+T> = None | Some(value: T)

  datatype Result<+T, +E> = Ok(value: T) | Err(error: E)

  /** The last element of a non-empty sequence. */
  function Last<T>(s: seq<T>): T
    requires |s| > 0
  {
    s[|s| - 1]
  }
}
